=== FILE: README.md ===
# URL canonisation: normalisation and video-id extraction

This project models, in Dafny, the pure string core of the URL-canonisation
scripts:

- `normalize_url` (expand_redirect/redirect_test.py) takes the six components
  that `urlparse` returns: scheme, netloc, path, params, query and fragment.
  It lower-cases the scheme and netloc and drops a default port (`:80` for
  http, `:443` for https). It strips the trailing slashes of any path longer
  than one character. It regroups the query fields by key with `parse_qs`,
  sorts the keys, and re-encodes them with `urlencode(doseq=True)`. Params and
  fragment pass through.
- `remove_fragment` (same file) clears the fragment and keeps the rest.
- `get_video_id_custom` (parse_assemble1.py) runs `re.search(r"v=([^&#/?]+)")`
  over the query component and returns the group, or `""` without a match.

A URL is the record `Url.Components` of six strings. `normalize_url` and
`remove_fragment` map components to components. The query step is modelled
literally: the fields are split off and grouped into an insertion-ordered dict
of value lists. The groups are sorted by key and flattened back into
`key=value` fields. Python compares `str` keys by code point, which is `Text.StrLe`.
The main result, `Query.RegroupIsStableSort`, proves this pipeline equal to a
stable insertion sort of the fields by key (`Query.SortByKey`). So the
normalised query holds the same fields, blank values included. Its keys are
non-decreasing, and fields sharing a key keep their input order.
`Query.SortedFilterUnique` shows that this description fixes the result.

The regex search is modelled as a left-to-right scan for the first index where
`v=` is followed by an accepted character (`ParseAssemble.FirstMatch`). The
greedy run of accepted characters after it is `ParseAssemble.RunEnd`. The
independent description `IsLeftmostMaximalCapture` says what a regex search
returns. `GetVideoIdIsTheCapture` and `CaptureUnique` prove that the function
returns exactly that.

Three facts about the code shape the model:
- `rstrip("/")` strips every trailing slash, so `"//"` becomes `""`
  (`RedirectTest.SlashOnlyPaths`).
- `sorted` orders the query by key, so the input order of parameters is kept
  only among parameters that share a key.
- The path is modelled as one string.

The comment on the last test URL of parse_assemble1.py (line 29) says that no
`v=` is found. The pattern does match that query.
`ParseAssemble.MatchesWithChannelParameter` proves that the result is
`"Rkuk1XQGHeg"`.

`normalize_url` is idempotent only when the normalised netloc no longer ends
in its default port. One pass turns `"h:80:80"` into `"h:80"`, and a second
pass gives `"h"` (`RedirectTest.DoublePortNeedsTwoPasses`).
`RedirectTest.NormalizeIdempotent` carries that precondition.

## Model

| member | source | states |
|---|---|---|
| Text.LowerAscii | expand_redirect/redirect_test.py:18-19 | ASCII model of `lower()`: same length, only 'A'..'Z' change (each to its lower-case letter), no upper-case letter remains |
| Text.LowerAsciiIdempotent | expand_redirect/redirect_test.py:18-19 | lower-casing a lower-cased string changes nothing |
| Text.EndsWith | expand_redirect/redirect_test.py:22-24 | `netloc.endswith(...)`: when it holds, the string is its prefix followed by the suffix |
| Text.EndsWithAppend | expand_redirect/redirect_test.py:22-24 | every string of the form prefix + suffix ends with that suffix |
| Text.StrLe | expand_redirect/redirect_test.py:36 | Python's `<=` on `str`, by which `sorted` compares keys: lexicographic by code point, a proper prefix first |
| Text.StrLeReflexive | expand_redirect/redirect_test.py:36 | every key is `<=` itself |
| Text.StrLeTotal | expand_redirect/redirect_test.py:36 | any two keys are comparable |
| Text.StrLeTransitive | expand_redirect/redirect_test.py:36 | the key order is transitive |
| Text.StrLeAntisymmetric | expand_redirect/redirect_test.py:36 | two keys each `<=` the other are equal, so distinct dict keys are strictly ordered |
| Query.SplitFields | expand_redirect/redirect_test.py:33 | the `'&'` split of `parse_qs`: at least one piece, no piece contains '&', joining the pieces with '&' gives the query back |
| Query.ParseField | expand_redirect/redirect_test.py:33 | a field splits at its first '='; the key holds no '='; a field without '=' gets a blank value (`keep_blank_values=True`) |
| Query.ParseFields | expand_redirect/redirect_test.py:33 | at most one pair per field; pieces without '&' give well-formed pairs; when no field is empty, the i-th pair is the i-th field split at its first '=' |
| Query.ParseFieldsAppend | expand_redirect/redirect_test.py:33 | the fields are parsed one by one: parsing two runs of fields is parsing each and concatenating |
| Query.SkipsEmptyField | expand_redirect/redirect_test.py:33 | an empty field, as between the two '&' of `a&&b`, contributes no pair |
| Query.ParsesBlankAndEmptyFields | expand_redirect/redirect_test.py:33 | `a&&k=v` parses to `(a, "")` and `(k, v)`: the blank value is kept, the empty field dropped |
| Query.ParseQuery | expand_redirect/redirect_test.py:33 | every parsed pair is well formed: key without '&' or '=', value without '&' |
| Query.RenderQuery | expand_redirect/redirect_test.py:37 | `urlencode` of a list of pairs: `key=value` fields joined by '&'; `Query.ParseRenderQuery` is its inverse |
| Query.ParseRenderQuery | expand_redirect/redirect_test.py:33-37 | parsing the `k=v&...` rendering of well-formed pairs gives the same pairs back |
| Query.AddPair | expand_redirect/redirect_test.py:33 | one step of building the `parse_qs` dict: append the value to its key's list, or add a new key at the end |
| Query.AddPairOtherKey | expand_redirect/redirect_test.py:33 | adding a pair leaves the entries of every other key unchanged |
| Query.AddPairDistinct | expand_redirect/redirect_test.py:33 | adding a pair keeps the dict keys distinct |
| Query.AddPairFlatten | expand_redirect/redirect_test.py:33 | adding a pair appends its value to the values of its own key and to no other |
| Query.GroupByKey | expand_redirect/redirect_test.py:33 | the dict `parse_qs` builds, one pair at a time in input order; `Query.GroupByKeyCorrect` states its contents |
| Query.AddPairNonEmpty | expand_redirect/redirect_test.py:33 | adding a pair leaves no entry without values |
| Query.GroupByKeyNonEmpty | expand_redirect/redirect_test.py:33 | every entry of the dict holds at least one value |
| Query.GroupByKeyCorrect | expand_redirect/redirect_test.py:33-35 | the dict built by `parse_qs` has distinct keys, no entry without values, and the entry for each key holds exactly that key's values in input order; so it has an entry for exactly the keys of the query |
| Query.SortByKeyCorrect | expand_redirect/redirect_test.py:36 | the reference insertion sort puts keys in non-decreasing order, keeps each key's entries in order, and is a permutation |
| Query.SortedFilterUnique | expand_redirect/redirect_test.py:36 | two key-sorted sequences with the same entries per key are equal, so a stable sort by key is unique |
| Query.StableSortIsSortByKey | expand_redirect/redirect_test.py:36 | any stable sort by key equals the reference sort |
| Query.SortByKeySorted | expand_redirect/redirect_test.py:36 | sorting a key-sorted sequence changes nothing |
| Query.Tag | expand_redirect/redirect_test.py:37 | `doseq=True` writes one pair per value of a key: as many pairs as values, the i-th being the key with the i-th value |
| Query.Flatten | expand_redirect/redirect_test.py:37 | `urlencode(doseq=True)` on the sorted items: every value of every entry, entry by entry; `Query.FlattenKeyFilter` and `Query.FlattenSorted` state its properties |
| Query.FlattenKeyFilter | expand_redirect/redirect_test.py:37 | the pairs of one key in the flattened output are the flattened entries of that key |
| Query.FlattenSorted | expand_redirect/redirect_test.py:36-37 | flattening entries sorted by key gives pairs sorted by key |
| Query.RegroupQuery | expand_redirect/redirect_test.py:33-37 | the dict, `sorted(items)` and `urlencode(doseq=True)` on the parsed pairs; `Query.RegroupIsStableSort` states what it computes |
| Query.RegroupIsStableSort | expand_redirect/redirect_test.py:33-37 | dict regrouping, `sorted(items)` and `urlencode(doseq=True)` together give the stable sort of the pairs by key: a permutation with blank values kept, keys non-decreasing, same-key pairs in input order |
| Query.NormalizeQuery | expand_redirect/redirect_test.py:33-37 | the emitted query string is the `key=value&...` rendering of the stable sort by key of the input query's pairs |
| Query.NormalizeQueryParses | expand_redirect/redirect_test.py:33-37 | the emitted query parses to the stable sort by key of the input query's pairs, with the same multiset of pairs |
| Query.NormalizeQueryIdempotent | expand_redirect/redirect_test.py:33-37 | normalising an already normalised query string changes nothing |
| Query.NormalizeRenderedQuery | expand_redirect/redirect_test.py:33-37 | a query rendered from well-formed pairs is emitted as the rendering of their stable sort by key |
| RedirectTest.HasDefaultPort | expand_redirect/redirect_test.py:22-25 | the condition under which a port is stripped: http with a netloc ending in `:80`, or https with one ending in `:443` |
| RedirectTest.StripDefaultPort | expand_redirect/redirect_test.py:22-25 | an http netloc ending in `:80` loses exactly those 3 characters, an https netloc ending in `:443` exactly those 4; every other netloc, https with `:80` included, is unchanged |
| RedirectTest.DoublePortNeedsTwoPasses | expand_redirect/redirect_test.py:22-25 | only one default port is stripped per call: `"h:80:80"` gives `"h:80"`, which still ends in the default port |
| RedirectTest.RStripSlashes | expand_redirect/redirect_test.py:30 | `rstrip("/")` gives a prefix of its input that does not end in '/', and everything removed is '/' |
| RedirectTest.StripTrailingSlash | expand_redirect/redirect_test.py:28-30 | a path longer than one character that ends in '/' becomes a shorter prefix that does not end in '/', and every removed character is '/'; other paths are unchanged; the result is "/" or does not end in '/' |
| RedirectTest.StripTrailingSlashIdempotent | expand_redirect/redirect_test.py:29-30 | applying the path step twice equals applying it once |
| RedirectTest.SlashOnlyPaths | expand_redirect/redirect_test.py:29-30 | the path `//` becomes the empty path, while `/` is kept |
| RedirectTest.NormalizeUrl | expand_redirect/redirect_test.py:5-48 | scheme is the lower-cased input scheme; netloc is the lower-cased input netloc after the port step; path is the path step's result; params and fragment pass through; the query is the `key=value&...` rendering of the stable sort by key of the input pairs, so it parses back to that sort, a permutation of the input pairs |
| RedirectTest.NormalizeIdempotent | expand_redirect/redirect_test.py:5-48 | normalising a normalised URL changes nothing when its netloc no longer ends in the default port |
| RedirectTest.NormalizesHostAndPath | expand_redirect/redirect_test.py:18-30 | `HTTP://www.Example.com:80/path/` (the first example of `main`) normalises to scheme `http`, netloc `www.example.com`, path `/path` |
| RedirectTest.NormalizesHttpsExample | expand_redirect/redirect_test.py:87 | `https://www.EXAMPLE.com:443/path/?b=2&a=1#section` normalises to netloc `www.example.com`, path `/path`, query `a=1&b=2`, fragment `section` |
| RedirectTest.AlreadyNormal | expand_redirect/redirect_test.py:5-48 | a URL with lower-case scheme and netloc, no default port, no trailing slash on a longer path, and a query that is empty or a single `key=value` field (key without '&' or '=', value without '&') comes back unchanged |
| RedirectTest.BlankFieldGetsEquals | expand_redirect/redirect_test.py:33-37 | a lone field without '=' does change: `parse_qs` gives it a blank value and `urlencode` writes `key=`, so `a` becomes `a=` |
| RedirectTest.KeepsVideoUrl | expand_redirect/redirect_test.py:83 | `https://www.youtube.com/watch?v=abc123#channel` is unchanged |
| RedirectTest.KeepsShortVideoUrl | expand_redirect/redirect_test.py:84 | `https://youtu.be/abc123` is unchanged |
| RedirectTest.KeepsPathCase | expand_redirect/redirect_test.py:85 | `http://bit.ly/3kX2Example` is unchanged: the path keeps its case |
| RedirectTest.KeepsShortLink | expand_redirect/redirect_test.py:86 | `https://bit.ly/mbmbam` is unchanged |
| RedirectTest.SortsQueryKeys | expand_redirect/redirect_test.py:33-37 | the query `b=2&a=1` is emitted as `a=1&b=2` |
| RedirectTest.RemoveFragment | expand_redirect/redirect_test.py:50-59 | the fragment becomes empty; scheme, netloc, path, params and query are unchanged |
| RedirectTest.RemoveFragmentIdempotent | expand_redirect/redirect_test.py:54-58 | removing the fragment twice equals removing it once |
| RedirectTest.RemoveFragmentCommutes | expand_redirect/redirect_test.py:94-98 | removing the fragment after normalising, as `main` does, equals normalising after removing it |
| ParseAssemble.RunEnd | parse_assemble1.py:13 | the greedy `[^&#/?]+` run: every character up to the returned end is accepted, and the end is the end of the string or a character in `&#/?` |
| ParseAssemble.FirstMatch | parse_assemble1.py:14 | the search returns the smallest index at or after the start where `v=` is followed by an accepted character, or none when there is no such index |
| ParseAssemble.GetVideoIdCustom | parse_assemble1.py:4-19 | only the query is searched; the result contains none of `&#/?`; it is `""` exactly when no `v=` is followed by an accepted character; otherwise it is the leftmost, maximal capture |
| ParseAssemble.MaximalRunIsRunEnd | parse_assemble1.py:13 | any run of accepted characters that stops at the end of the query or at a character in `&#/?` ends exactly where the greedy run ends |
| ParseAssemble.CaptureUnique | parse_assemble1.py:13-17 | at most one index and one group fit the leftmost-maximal description of a search result |
| ParseAssemble.GetVideoIdIsTheCapture | parse_assemble1.py:13-17 | whenever an index and group fit that description, the function returns that group |
| ParseAssemble.LeadingVideoId | parse_assemble1.py:13-17 | a query `v=` + id + rest, with id a non-empty run of accepted characters and rest empty or starting with a stop character, yields id |
| ParseAssemble.StopsAtEndOfQuery | parse_assemble1.py:23 | the query `v=abc123` (fragment `some_fragment`) yields `abc123` |
| ParseAssemble.StopsAtSecondQuestionMark | parse_assemble1.py:26 | the query `v=abc123?something=else` yields `abc123` |
| ParseAssemble.StopsBeforeShortField | parse_assemble1.py:27 | the query `v=abc123&1` (fragment `#`) yields `abc123` |
| ParseAssemble.StopsAtTrailingAmpersand | parse_assemble1.py:28 | the query `v=abc123&` (fragment `crap`) yields `abc123` |
| ParseAssemble.StopsAtQuestionMark | parse_assemble1.py:25 | `v=abc123?0t57y/` yields `abc123` |
| ParseAssemble.StopsAtAmpersand | parse_assemble1.py:24 | `v=abc123&feature=share` yields `abc123` |
| ParseAssemble.MatchesWithChannelParameter | parse_assemble1.py:29 | `v=Rkuk1XQGHeg&ab_channel=Mda` yields `Rkuk1XQGHeg`, not the empty string the comment there claims |
| ParseAssemble.MatchesInsideLongerKey | parse_assemble1.py:13 | the search is unanchored: in `dev=xyz&v=abc` the `v=` inside `dev=` matches first, giving `xyz` |
| ParseAssemble.OnlyQuerySearched | parse_assemble1.py:9-14 | two URLs with the same query component yield the same result, whatever their other components |
| ParseAssemble.IgnoresPathAndFragment | parse_assemble1.py:9-10 | a `v=` in the path or the fragment is not searched |

## Left out

- `expand_redirect` (expand_redirect/redirect_test.py:61-76): it makes network requests (HEAD with a fallback to GET, following redirects) and prints errors. The network cannot be modelled.
- `main` (expand_redirect/redirect_test.py:79-106) and the top-level loop of parse_assemble1.py (lines 22-34) only print. Every example URL of both appears as a lemma on its components, as `urlparse` splits them (except the upper-case scheme of the first, kept to exercise the lower-casing) (`RedirectTest.NormalizesHostAndPath`, `KeepsVideoUrl`, `KeepsShortVideoUrl`, `KeepsPathCase`, `KeepsShortLink` and `NormalizesHttpsExample`; the seven `ParseAssemble` example lemmas); the redirect expansion `main` applies afterwards is not modelled.
- `urlparse` and `urlunparse` are library code. The model takes the six components as input and returns six components, not a string.
- Percent-decoding and `+`-to-space in `parse_qs`, and quoting in `urlencode`: these are library behaviour. Fields are split and joined as they stand, and rendered as `key=value` joined by '&'. The model therefore sorts on the encoded keys, and its order can differ from Python's: Python decodes `%61` to `a` and puts the key `B` first, while the model puts `%61` first because `'%'` sorts before `'B'`. Keys written differently that decode to the same string, such as `a` and `%61`, are also not merged into one dict entry.
- The `max_num_fields` limit of `parse_qs`, and the `;` separator that older Python releases also accepted: the model splits on '&' only.
- Text.LowerAscii: maps ASCII letters only. Python's `str.lower()` also maps non-ASCII letters.
- `sorted(items)` is modelled as an insertion sort on the dict entries. The keys are distinct, so every correct sort gives this same order, and the lists of values are never compared.
- The trial-and-verify reducer, equivalence oracle, page fetcher and HTML signature strategies are not part of this model.

=== FILE: parse_assemble.dfy ===
/** `get_video_id_custom`: an unanchored search for `v=([^&#/?]+)` in the query
    component, returning the captured group or "". */
module ParseAssemble {
  import opened Url

  datatype Option<T> = None | Some(value: T)

  /** A character the class `[^&#/?]` accepts. */
  predicate InCapture(c: char) {
    c != '&' && c != '#' && c != '/' && c != '?'
  }

  /** The pattern can match at index `i` of `q`: "v=" followed by at least one
      accepted character. */
  predicate MatchAt(q: string, i: nat) {
    i + 2 < |q| && q[i] == 'v' && q[i + 1] == '=' && InCapture(q[i + 2])
  }

  /** What the regex search returns when it matches at `i` with group `r`: the
      leftmost index where a match is possible, and the longest run of
      accepted characters after "v=" there (`+` is greedy and nothing follows
      the group in the pattern). */
  ghost predicate IsLeftmostMaximalCapture(q: string, i: nat, r: string) {
    && MatchAt(q, i)
    && (forall j: nat :: j < i ==> !MatchAt(q, j))
    && i + 2 + |r| <= |q|
    && q[i + 2..i + 2 + |r|] == r
    && (forall k :: 0 <= k < |r| ==> InCapture(r[k]))
    && (i + 2 + |r| == |q| || !InCapture(q[i + 2 + |r|]))
  }

  /** End of the run of accepted characters that starts at `j`. */
  function RunEnd(q: string, j: nat): (e: nat)
    requires j <= |q|
    ensures j <= e <= |q|
    ensures forall k :: j <= k < e ==> InCapture(q[k])
    ensures e == |q| || !InCapture(q[e])
    decreases |q| - j
  {
    if j < |q| && InCapture(q[j]) then RunEnd(q, j + 1) else j
  }

  /** The first index at or after `i` where the pattern matches, as the search
      tries positions left to right. */
  function FirstMatch(q: string, i: nat): (m: Option<nat>)
    ensures m.Some? ==> i <= m.value && MatchAt(q, m.value)
    ensures m.Some? ==> forall j: nat :: i <= j < m.value ==> !MatchAt(q, j)
    ensures m.None? ==> forall j: nat :: i <= j ==> !MatchAt(q, j)
    decreases |q| - i
  {
    if i + 2 >= |q| then None
    else if MatchAt(q, i) then Some(i)
    else FirstMatch(q, i + 1)
  }

  /** `get_video_id_custom` on the components of the URL: only the query is
      searched. The result holds none of '&', '#', '/', '?'; it is empty
      exactly when "v=" followed by an accepted character occurs nowhere in the
      query; otherwise it is the leftmost, maximal capture. */
  function GetVideoIdCustom(u: Components): (r: string)
    ensures forall k :: 0 <= k < |r| ==> InCapture(r[k])
    ensures r == "" <==> forall i: nat :: !MatchAt(u.query, i)
    ensures r != "" ==> exists i: nat :: IsLeftmostMaximalCapture(u.query, i, r)
  {
    var q := u.query;
    match FirstMatch(q, 0)
    case None => ""
    case Some(i) =>
      var e := RunEnd(q, i + 2);
      assert IsLeftmostMaximalCapture(q, i, q[i + 2..e]);
      q[i + 2..e]
  }

  /** A run of accepted characters from `j` that stops at the end of the
      string or at a stop character ends where RunEnd says. */
  lemma {:induction false} MaximalRunIsRunEnd(q: string, j: nat, n: nat)
    requires j + n <= |q|
    requires forall k :: j <= k < j + n ==> InCapture(q[k])
    requires j + n == |q| || !InCapture(q[j + n])
    ensures RunEnd(q, j) == j + n
    decreases n
  {
    if n > 0 {
      MaximalRunIsRunEnd(q, j + 1, n - 1);
    }
  }

  /** The search answer is determined: at most one index and one group satisfy
      the leftmost-maximal description. */
  lemma CaptureUnique(q: string, i1: nat, r1: string, i2: nat, r2: string)
    requires IsLeftmostMaximalCapture(q, i1, r1)
    requires IsLeftmostMaximalCapture(q, i2, r2)
    ensures i1 == i2 && r1 == r2
  {
    assert !(i1 < i2) && !(i2 < i1);
    var s := i1 + 2;
    assert forall k :: s <= k < s + |r1| ==> q[k] == r1[k - s];
    assert forall k :: s <= k < s + |r2| ==> q[k] == r2[k - s];
    MaximalRunIsRunEnd(q, s, |r1|);
    MaximalRunIsRunEnd(q, s, |r2|);
  }

  /** Hence the function returns the one answer the regex search gives. */
  lemma GetVideoIdIsTheCapture(u: Components, i: nat, r: string)
    requires IsLeftmostMaximalCapture(u.query, i, r)
    ensures GetVideoIdCustom(u) == r
  {
    var id := GetVideoIdCustom(u);
    assert id != "";
    var j: nat :| IsLeftmostMaximalCapture(u.query, j, id);
    CaptureUnique(u.query, i, r, j, id);
  }

  /** A query that starts with "v=" followed by a non-empty run of accepted
      characters and then a stop character (or the end) yields that run. */
  lemma LeadingVideoId(u: Components, id: string, rest: string)
    requires u.query == "v=" + id + rest
    requires id != [] && forall k :: 0 <= k < |id| ==> InCapture(id[k])
    requires rest == [] || !InCapture(rest[0])
    ensures GetVideoIdCustom(u) == id
  {
    var q := u.query;
    assert q[0] == 'v' && q[1] == '=' && q[2] == id[0];
    assert q[2..2 + |id|] == id;
    assert 2 + |id| < |q| ==> q[2 + |id|] == rest[0];
    GetVideoIdIsTheCapture(u, 0, id);
  }

  /** "v=abc123?0t57y/" gives "abc123": the capture stops at '?'. */
  lemma StopsAtQuestionMark()
    ensures GetVideoIdCustom(Components("https", "www.youtube.com", "/watch", "", "v=" + "abc123" + "?0t57y/", "")) == "abc123"
  {
    LeadingVideoId(Components("https", "www.youtube.com", "/watch", "", "v=" + "abc123" + "?0t57y/", ""), "abc123", "?0t57y/");
  }

  /** "v=abc123&feature=share" gives "abc123": the capture stops at '&'. */
  lemma StopsAtAmpersand()
    ensures GetVideoIdCustom(Components("https", "www.youtube.com", "/watch", "", "v=" + "abc123" + "&feature=share", "")) == "abc123"
  {
    LeadingVideoId(Components("https", "www.youtube.com", "/watch", "", "v=" + "abc123" + "&feature=share", ""), "abc123", "&feature=share");
  }

  /** "v=Rkuk1XQGHeg&ab_channel=Mda" gives "Rkuk1XQGHeg": the pattern does
      match this query. */
  lemma MatchesWithChannelParameter()
    ensures GetVideoIdCustom(Components("https", "www.youtube.com", "/watch", "", "v=" + "Rkuk1XQGHeg" + "&ab_channel=Mda", "")) == "Rkuk1XQGHeg"
  {
    LeadingVideoId(Components("https", "www.youtube.com", "/watch", "", "v=" + "Rkuk1XQGHeg" + "&ab_channel=Mda", ""), "Rkuk1XQGHeg", "&ab_channel=Mda");
  }

  /** "v=abc123" with the fragment "some_fragment" gives "abc123": the
      capture runs to the end of the query. */
  lemma StopsAtEndOfQuery()
    ensures GetVideoIdCustom(Components("https", "www.youtube.com", "/watch", "", "v=" + "abc123", "some_fragment")) == "abc123"
  {
    assert "v=" + "abc123" == "v=" + "abc123" + [];
    LeadingVideoId(Components("https", "www.youtube.com", "/watch", "", "v=" + "abc123", "some_fragment"), "abc123", []);
  }

  /** "v=abc123?something=else" gives "abc123": a second '?' stays in the
      query and stops the capture. */
  lemma StopsAtSecondQuestionMark()
    ensures GetVideoIdCustom(Components("https", "www.youtube.com", "/watch", "", "v=" + "abc123" + "?something=else", "")) == "abc123"
  {
    LeadingVideoId(Components("https", "www.youtube.com", "/watch", "", "v=" + "abc123" + "?something=else", ""), "abc123", "?something=else");
  }

  /** "v=abc123&1" with the fragment "#" gives "abc123". */
  lemma StopsBeforeShortField()
    ensures GetVideoIdCustom(Components("https", "youtu.be", "/watch", "", "v=" + "abc123" + "&1", "#")) == "abc123"
  {
    LeadingVideoId(Components("https", "youtu.be", "/watch", "", "v=" + "abc123" + "&1", "#"), "abc123", "&1");
  }

  /** "v=abc123&" with the fragment "crap" gives "abc123": the trailing '&'
      stops the capture. */
  lemma StopsAtTrailingAmpersand()
    ensures GetVideoIdCustom(Components("https", "www.youtube.com", "/watch", "", "v=" + "abc123" + "&", "crap")) == "abc123"
  {
    LeadingVideoId(Components("https", "www.youtube.com", "/watch", "", "v=" + "abc123" + "&", "crap"), "abc123", "&");
  }

  /** The search is unanchored: "v=" inside the key "dev" matches. */
  lemma MatchesInsideLongerKey()
    ensures GetVideoIdCustom(Components("https", "example.com", "/", "", "dev=xyz&v=abc", "")) == "xyz"
  {
    var q := "dev=xyz&v=abc";
    assert !MatchAt(q, 0) && !MatchAt(q, 1);
    GetVideoIdIsTheCapture(Components("https", "example.com", "/", "", q, ""), 2, "xyz");
  }

  /** Only the query decides the result: URLs that share a query share it. */
  lemma OnlyQuerySearched(u: Components, w: Components)
    requires u.query == w.query
    ensures GetVideoIdCustom(u) == GetVideoIdCustom(w)
  {
  }

  /** "v=" in the path or the fragment is not searched. */
  lemma IgnoresPathAndFragment()
    ensures GetVideoIdCustom(Components("https", "example.com", "/v=abc", "", "x=1", "v=def")) == ""
  {
    var q := "x=1";
    assert forall i: nat :: !MatchAt(q, i);
  }
}

=== FILE: query.dfy ===
/** The query step of `normalize_url`: `parse_qs(query, keep_blank_values=True)`
    collects the fields into a dict of value lists, `sorted(items)` orders the
    keys, and `urlencode(..., doseq=True)` writes one `key=value` per value.
    The module proves that this pipeline is a stable sort of the fields by key. */
module Query {
  import opened Text

  /** One query field, (key, value). */
  type Pair = (string, string)

  /** One entry of the dict built by `parse_qs`: a key and its values in the
      order they appeared. */
  type Group = (string, seq<string>)

  // ---------------------------------------------------------------------------
  // Splitting and rendering the query string.

  /** The fields joined by '&': the inverse of `split('&')`, as the
      contract of `SplitFields` states. */
  function JoinFields(fs: seq<string>): string {
    if |fs| == 0 then ""
    else if |fs| == 1 then fs[0]
    else fs[0] + "&" + JoinFields(fs[1..])
  }

  /** `s.split('&')`: at least one piece, no piece holds '&', and joining the
      pieces gives `s` back. */
  function SplitFields(s: string): (fs: seq<string>)
    ensures |fs| >= 1
    ensures forall i :: 0 <= i < |fs| ==> '&' !in fs[i]
    ensures JoinFields(fs) == s
    decreases |s|
  {
    var i := IndexOf(s, '&');
    if i == |s| then [s]
    else
      assert s == s[..i] + "&" + s[i + 1..];
      [s[..i]] + SplitFields(s[i + 1..])
  }

  /** One field split at its first '='; a field with no '=' gets a blank value
      (`keep_blank_values=True`). */
  function ParseField(f: string): (p: Pair)
    ensures '=' !in p.0
    ensures '=' in f ==> f == p.0 + "=" + p.1
    ensures '=' !in f ==> p == (f, "")
  {
    var i := IndexOf(f, '=');
    if i == |f| then (f, "")
    else
      assert f == f[..i] + "=" + f[i + 1..];
      (f[..i], f[i + 1..])
  }

  /** Keys hold neither '&' nor '=', values hold no '&': what splitting a
      query string can produce. */
  predicate WellFormed(ps: seq<Pair>) {
    forall p :: p in ps ==> '&' !in p.0 && '=' !in p.0 && '&' !in p.1
  }

  /** The fields parsed in order, empty fields skipped: with no empty field,
      the i-th pair is the i-th field parsed. */
  function ParseFields(fs: seq<string>): (ps: seq<Pair>)
    ensures (forall i :: 0 <= i < |fs| ==> '&' !in fs[i]) ==> WellFormed(ps)
    ensures |ps| <= |fs|
    ensures (forall i :: 0 <= i < |fs| ==> fs[i] != "") ==>
      |ps| == |fs| && forall i :: 0 <= i < |ps| ==> ps[i] == ParseField(fs[i])
  {
    if fs == [] then []
    else (if fs[0] == "" then [] else [ParseField(fs[0])]) + ParseFields(fs[1..])
  }

  /** `parse_qsl(q, keep_blank_values=True)` without percent-decoding. */
  function ParseQuery(q: string): (ps: seq<Pair>)
    ensures WellFormed(ps)
  {
    ParseFields(SplitFields(q))
  }

  function RenderField(p: Pair): string {
    p.0 + "=" + p.1
  }

  /** `urlencode` of a list of pairs, without percent-encoding. */
  function RenderQuery(ps: seq<Pair>): string {
    if |ps| == 0 then ""
    else if |ps| == 1 then RenderField(ps[0])
    else RenderField(ps[0]) + "&" + RenderQuery(ps[1..])
  }

  lemma ParseRenderField(p: Pair)
    requires '=' !in p.0
    ensures ParseField(RenderField(p)) == p
  {
    var f := RenderField(p);
    assert f == p.0 + ['='] + p.1;
    IndexOfAfter(p.0, '=', p.1);
    assert f[..|p.0|] == p.0 && f[|p.0| + 1..] == p.1;
  }

  lemma SplitFieldsCons(f: string, rest: string)
    requires '&' !in f
    ensures SplitFields(f + "&" + rest) == [f] + SplitFields(rest)
  {
    var s := f + "&" + rest;
    assert s == f + ['&'] + rest;
    IndexOfAfter(f, '&', rest);
    assert s[..|f|] == f && s[|f| + 1..] == rest;
  }

  lemma ParseFieldsCons(f: string, fs: seq<string>)
    requires f != ""
    ensures ParseFields([f] + fs) == [ParseField(f)] + ParseFields(fs)
  {
    assert ([f] + fs)[1..] == fs;
  }

  lemma {:induction false} ParseFieldsAppend(a: seq<string>, b: seq<string>)
    ensures ParseFields(a + b) == ParseFields(a) + ParseFields(b)
  {
    if a == [] {
      assert a + b == b;
    } else {
      assert (a + b)[0] == a[0] && (a + b)[1..] == a[1..] + b;
      ParseFieldsAppend(a[1..], b);
    }
  }

  /** An empty field, as between the two '&' of "a&&b", yields no pair. */
  lemma SkipsEmptyField(a: seq<string>, b: seq<string>)
    ensures ParseFields(a + [""] + b) == ParseFields(a) + ParseFields(b)
  {
    ParseFieldsAppend(a + [""], b);
    ParseFieldsAppend(a, [""]);
  }

  /** A field without '=' followed by an empty field and a `key=value`
      field, as in "a&&b=1", parses to the blank-valued pair and the
      key-value pair: the blank value is kept and the empty field dropped. */
  lemma ParsesBlankAndEmptyFields(a: string, k: string, v: string)
    requires a != "" && '&' !in a && '=' !in a
    requires '&' !in k && '=' !in k && '&' !in v
    ensures ParseQuery(a + "&" + "&" + k + "=" + v) == [(a, ""), (k, v)]
  {
    var f := RenderField((k, v));
    assert '&' !in f;
    var q := a + "&" + "&" + k + "=" + v;
    assert q == a + "&" + ("" + "&" + f);
    SplitFieldsCons(a, "" + "&" + f);
    SplitFieldsCons("", f);
    assert SplitFields(f) == [f];
    assert SplitFields(q) == [a] + [""] + [f];
    SkipsEmptyField([a], [f]);
    ParseRenderField((k, v));
  }

  /** Parsing a rendered query gives back the pairs it was rendered from. */
  lemma {:induction false} ParseRenderQuery(ps: seq<Pair>)
    requires WellFormed(ps)
    ensures ParseQuery(RenderQuery(ps)) == ps
  {
    if |ps| == 0 {
      assert SplitFields("") == [""];
    } else {
      var f := RenderField(ps[0]);
      assert ps[0] in ps;
      assert '&' !in f;
      ParseRenderField(ps[0]);
      if |ps| == 1 {
        assert SplitFields(f) == [f];
        ParseFieldsCons(f, []);
      } else {
        var rest := RenderQuery(ps[1..]);
        SplitFieldsCons(f, rest);
        ParseFieldsCons(f, SplitFields(rest));
        assert WellFormed(ps[1..]) by {
          forall p | p in ps[1..] ensures p in ps { }
        }
        ParseRenderQuery(ps[1..]);
        assert ps == [ps[0]] + ps[1..];
      }
    }
  }

  // ---------------------------------------------------------------------------
  // Ordering entries by key.

  /** The entries of `s` whose key is `k`, in their order in `s`. */
  function KeyFilter<V>(s: seq<(string, V)>, k: string): seq<(string, V)> {
    if s == [] then []
    else (if s[0].0 == k then [s[0]] else []) + KeyFilter(s[1..], k)
  }

  /** Every key of `s` is at least `m`. */
  predicate LeAll<V>(m: string, s: seq<(string, V)>) {
    forall i :: 0 <= i < |s| ==> StrLe(m, s[i].0)
  }

  /** Keys appear in non-decreasing order. */
  predicate SortedByKey<V>(s: seq<(string, V)>) {
    forall i, j :: 0 <= i < j < |s| ==> StrLe(s[i].0, s[j].0)
  }

  /** `r` orders the entries of `s` by key, entries that share a key keeping
      their relative order. */
  ghost predicate IsStableSortByKey<V>(s: seq<(string, V)>, r: seq<(string, V)>) {
    SortedByKey(r) && forall k :: KeyFilter(r, k) == KeyFilter(s, k)
  }

  /** `x` goes before the first entry whose key is not smaller, so ahead of
      every entry with the same key. */
  function InsertByKey<V>(x: (string, V), s: seq<(string, V)>): seq<(string, V)> {
    if s == [] || StrLe(x.0, s[0].0) then [x] + s
    else [s[0]] + InsertByKey(x, s[1..])
  }

  /** Stable insertion sort by key: the reference definition of the order the
      normalised query must have. */
  function SortByKey<V>(s: seq<(string, V)>): seq<(string, V)> {
    if s == [] then [] else InsertByKey(s[0], SortByKey(s[1..]))
  }

  lemma {:induction false} KeyFilterAppend<V>(a: seq<(string, V)>, b: seq<(string, V)>, k: string)
    ensures KeyFilter(a + b, k) == KeyFilter(a, k) + KeyFilter(b, k)
  {
    if a != [] {
      var h := if a[0].0 == k then [a[0]] else [];
      assert (a + b)[0] == a[0];
      assert (a + b)[1..] == a[1..] + b;
      KeyFilterAppend(a[1..], b, k);
      calc {
        KeyFilter(a + b, k);
        h + KeyFilter(a[1..] + b, k);
        h + (KeyFilter(a[1..], k) + KeyFilter(b, k));
        (h + KeyFilter(a[1..], k)) + KeyFilter(b, k);
        KeyFilter(a, k) + KeyFilter(b, k);
      }
    } else {
      assert a + b == b;
    }
  }

  lemma SortedCons<V>(x: (string, V), s: seq<(string, V)>)
    ensures SortedByKey([x] + s) <==> LeAll(x.0, s) && SortedByKey(s)
  {
    var t := [x] + s;
    if LeAll(x.0, s) && SortedByKey(s) {
      forall i, j | 0 <= i < j < |t| ensures StrLe(t[i].0, t[j].0) {
        if i > 0 {
          assert t[i] == s[i - 1] && t[j] == s[j - 1];
        } else {
          assert t[j] == s[j - 1];
        }
      }
    }
    if SortedByKey(t) {
      forall i | 0 <= i < |s| ensures StrLe(x.0, s[i].0) {
        assert t[0] == x && t[i + 1] == s[i];
      }
      forall i, j | 0 <= i < j < |s| ensures StrLe(s[i].0, s[j].0) {
        assert t[i + 1] == s[i] && t[j + 1] == s[j];
      }
    }
  }

  lemma {:induction false} InsertKeyFilter<V>(x: (string, V), s: seq<(string, V)>, k: string)
    ensures KeyFilter(InsertByKey(x, s), k) == (if x.0 == k then [x] else []) + KeyFilter(s, k)
  {
    if s == [] || StrLe(x.0, s[0].0) {
      assert ([x] + s)[1..] == s;
    } else {
      StrLeReflexive(x.0);
      assert s[0].0 != x.0;
      InsertKeyFilter(x, s[1..], k);
      assert ([s[0]] + InsertByKey(x, s[1..]))[1..] == InsertByKey(x, s[1..]);
    }
  }

  lemma {:induction false} InsertMultiset<V>(x: (string, V), s: seq<(string, V)>)
    ensures multiset(InsertByKey(x, s)) == multiset(s) + multiset{x}
  {
    if s != [] && !StrLe(x.0, s[0].0) {
      InsertMultiset(x, s[1..]);
      assert s == [s[0]] + s[1..];
    }
  }

  lemma {:induction false} InsertLeAll<V>(m: string, x: (string, V), s: seq<(string, V)>)
    requires LeAll(m, s) && StrLe(m, x.0)
    ensures LeAll(m, InsertByKey(x, s))
  {
    if s != [] && !StrLe(x.0, s[0].0) {
      InsertLeAll(m, x, s[1..]);
      var t := InsertByKey(x, s[1..]);
      assert forall i :: 0 < i <= |t| ==> ([s[0]] + t)[i] == t[i - 1];
    } else {
      assert forall i :: 0 < i <= |s| ==> ([x] + s)[i] == s[i - 1];
    }
  }

  lemma {:induction false} InsertSorted<V>(x: (string, V), s: seq<(string, V)>)
    requires SortedByKey(s)
    ensures SortedByKey(InsertByKey(x, s))
  {
    if s == [] {
    } else if StrLe(x.0, s[0].0) {
      forall i | 0 <= i < |s| ensures StrLe(x.0, s[i].0) {
        if i > 0 {
          StrLeTransitive(x.0, s[0].0, s[i].0);
        }
      }
      SortedCons(x, s);
    } else {
      assert s == [s[0]] + s[1..];
      SortedCons(s[0], s[1..]);
      InsertSorted(x, s[1..]);
      StrLeTotal(x.0, s[0].0);
      InsertLeAll(s[0].0, x, s[1..]);
      SortedCons(s[0], InsertByKey(x, s[1..]));
    }
  }

  /** The reference sort is a stable sort by key and a permutation. */
  lemma {:induction false} SortByKeyCorrect<V>(s: seq<(string, V)>)
    ensures IsStableSortByKey(s, SortByKey(s))
    ensures multiset(SortByKey(s)) == multiset(s)
  {
    if s != [] {
      SortByKeyCorrect(s[1..]);
      InsertSorted(s[0], SortByKey(s[1..]));
      InsertMultiset(s[0], SortByKey(s[1..]));
      forall k ensures KeyFilter(SortByKey(s), k) == KeyFilter(s, k) {
        InsertKeyFilter(s[0], SortByKey(s[1..]), k);
      }
      assert s == [s[0]] + s[1..];
    }
  }

  lemma {:induction false} KeyFilterBound<V>(m: string, s: seq<(string, V)>, k: string)
    requires LeAll(m, s) && KeyFilter(s, k) != []
    ensures StrLe(m, k)
  {
    if s[0].0 != k {
      KeyFilterBound(m, s[1..], k);
    }
  }

  lemma NoEntryNoFilter<V>(s: seq<(string, V)>)
    requires forall k :: KeyFilter(s, k) == []
    ensures s == []
  {
    if s != [] {
      assert KeyFilter(s, s[0].0) == [s[0]] + KeyFilter(s[1..], s[0].0);
    }
  }

  /** A key order that keeps every key's entries in place is unique: two
      sorted sequences with the same entries per key are equal. */
  lemma {:induction false} SortedFilterUnique<V>(r1: seq<(string, V)>, r2: seq<(string, V)>)
    requires SortedByKey(r1) && SortedByKey(r2)
    requires forall k :: KeyFilter(r1, k) == KeyFilter(r2, k)
    ensures r1 == r2
    decreases |r1|
  {
    if r1 == [] {
      NoEntryNoFilter(r2);
    } else if r2 == [] {
      NoEntryNoFilter(r1);
    } else {
      var a, b := r1[0], r2[0];
      var t1, t2 := r1[1..], r2[1..];
      assert r1 == [a] + t1 && r2 == [b] + t2;
      SortedCons(a, t1);
      SortedCons(b, t2);
      StrLeReflexive(a.0);
      StrLeReflexive(b.0);
      assert LeAll(a.0, r1) && LeAll(b.0, r2);
      assert KeyFilter(r1, a.0) == [a] + KeyFilter(t1, a.0);
      assert KeyFilter(r2, b.0) == [b] + KeyFilter(t2, b.0);
      KeyFilterBound(b.0, r2, a.0);
      KeyFilterBound(a.0, r1, b.0);
      StrLeAntisymmetric(a.0, b.0);
      assert KeyFilter(r1, a.0) == KeyFilter(r2, a.0);
      assert KeyFilter(r1, a.0)[0] == a && KeyFilter(r2, a.0)[0] == b;
      assert a == b;
      forall k ensures KeyFilter(t1, k) == KeyFilter(t2, k) {
        assert KeyFilter(r1, k) == (if a.0 == k then [a] else []) + KeyFilter(t1, k);
        assert KeyFilter(r2, k) == (if b.0 == k then [b] else []) + KeyFilter(t2, k);
        assert KeyFilter(r1, k) == KeyFilter(r2, k);
        if a.0 == k {
          assert KeyFilter(r1, k)[1..] == KeyFilter(t1, k);
          assert KeyFilter(r2, k)[1..] == KeyFilter(t2, k);
        } else {
          assert KeyFilter(r1, k) == KeyFilter(t1, k);
          assert KeyFilter(r2, k) == KeyFilter(t2, k);
        }
      }
      SortedFilterUnique(t1, t2);
    }
  }

  /** Any stable sort by key is the reference sort. */
  lemma StableSortIsSortByKey<V>(s: seq<(string, V)>, r: seq<(string, V)>)
    requires IsStableSortByKey(s, r)
    ensures r == SortByKey(s)
  {
    SortByKeyCorrect(s);
    SortedFilterUnique(r, SortByKey(s));
  }

  /** Sorting entries that are already in key order changes nothing. */
  lemma SortByKeySorted<V>(s: seq<(string, V)>)
    requires SortedByKey(s)
    ensures SortByKey(s) == s
  {
    StableSortIsSortByKey(s, s);
  }

  // ---------------------------------------------------------------------------
  // The dict of value lists built by parse_qs, and urlencode(doseq=True).

  /** `[(k, v) for v in vs]`. */
  function Tag(k: string, vs: seq<string>): (r: seq<Pair>)
    ensures |r| == |vs|
    ensures forall i :: 0 <= i < |r| ==> r[i] == (k, vs[i])
  {
    if vs == [] then [] else [(k, vs[0])] + Tag(k, vs[1..])
  }

  /** The pairs `urlencode(groups, doseq=True)` writes: every value of every
      group, group by group. */
  function Flatten(gs: seq<Group>): seq<Pair> {
    if gs == [] then [] else Tag(gs[0].0, gs[0].1) + Flatten(gs[1..])
  }

  /** `d.setdefault(k, []).append(v)` on an insertion-ordered dict. */
  function AddPair(gs: seq<Group>, p: Pair): seq<Group> {
    if gs == [] then [(p.0, [p.1])]
    else if gs[0].0 == p.0 then [(gs[0].0, gs[0].1 + [p.1])] + gs[1..]
    else [gs[0]] + AddPair(gs[1..], p)
  }

  /** The dict `parse_qs` builds from the parsed fields. */
  function GroupByKey(ps: seq<Pair>): seq<Group>
    decreases |ps|
  {
    if ps == [] then [] else AddPair(GroupByKey(ps[..|ps| - 1]), ps[|ps| - 1])
  }

  /** No key appears in two groups: the keys of a dict. */
  predicate DistinctKeys(gs: seq<Group>) {
    gs == [] || (KeyFilter(gs[1..], gs[0].0) == [] && DistinctKeys(gs[1..]))
  }

  /** `urlencode(sorted(parse_qs(...).items()), doseq=True)` on the parsed pairs. */
  function RegroupQuery(ps: seq<Pair>): seq<Pair> {
    Flatten(SortByKey(GroupByKey(ps)))
  }

  lemma {:induction false} TagKeyFilter(k: string, vs: seq<string>, k2: string)
    ensures KeyFilter(Tag(k, vs), k2) == if k == k2 then Tag(k, vs) else []
  {
    if vs != [] {
      TagKeyFilter(k, vs[1..], k2);
      assert ([(k, vs[0])] + Tag(k, vs[1..]))[1..] == Tag(k, vs[1..]);
    }
  }

  lemma {:induction false} FlattenKeyFilter(gs: seq<Group>, k: string)
    ensures KeyFilter(Flatten(gs), k) == Flatten(KeyFilter(gs, k))
  {
    if gs != [] {
      FlattenKeyFilter(gs[1..], k);
      KeyFilterAppend(Tag(gs[0].0, gs[0].1), Flatten(gs[1..]), k);
      TagKeyFilter(gs[0].0, gs[0].1, k);
      if gs[0].0 == k {
        assert Flatten([gs[0]] + KeyFilter(gs[1..], k))
          == Tag(gs[0].0, gs[0].1) + Flatten(KeyFilter(gs[1..], k));
      } else {
        assert [] + KeyFilter(gs[1..], k) == KeyFilter(gs[1..], k);
      }
    }
  }

  lemma {:induction false} AddPairOtherKey(gs: seq<Group>, p: Pair, k: string)
    requires k != p.0
    ensures KeyFilter(AddPair(gs, p), k) == KeyFilter(gs, k)
  {
    if gs == [] {
    } else if gs[0].0 == p.0 {
      assert AddPair(gs, p)[1..] == gs[1..];
    } else {
      AddPairOtherKey(gs[1..], p, k);
      assert AddPair(gs, p)[1..] == AddPair(gs[1..], p);
    }
  }

  lemma {:induction false} AddPairDistinct(gs: seq<Group>, p: Pair)
    requires DistinctKeys(gs)
    ensures DistinctKeys(AddPair(gs, p))
  {
    if gs == [] {
    } else if gs[0].0 == p.0 {
      assert AddPair(gs, p)[1..] == gs[1..];
    } else {
      AddPairDistinct(gs[1..], p);
      AddPairOtherKey(gs[1..], p, gs[0].0);
      assert AddPair(gs, p)[1..] == AddPair(gs[1..], p);
    }
  }

  lemma {:induction false} AddPairFlatten(gs: seq<Group>, p: Pair, k: string)
    requires DistinctKeys(gs)
    ensures Flatten(KeyFilter(AddPair(gs, p), k))
         == Flatten(KeyFilter(gs, k)) + (if p.0 == k then [p] else [])
  {
    if gs == [] {
      assert KeyFilter(AddPair(gs, p), k) == if p.0 == k then [(p.0, [p.1])] else [];
    } else if gs[0].0 == p.0 {
      var g := (gs[0].0, gs[0].1 + [p.1]);
      assert AddPair(gs, p) == [g] + gs[1..];
      assert KeyFilter([g] + gs[1..], k) == (if g.0 == k then [g] else []) + KeyFilter(gs[1..], k);
      assert gs == [gs[0]] + gs[1..];
      if p.0 == k {
        assert KeyFilter(gs[1..], k) == [];
        assert Tag(k, gs[0].1 + [p.1]) == Tag(k, gs[0].1) + [p];
      }
    } else {
      AddPairFlatten(gs[1..], p, k);
      var rest := AddPair(gs[1..], p);
      assert AddPair(gs, p) == [gs[0]] + rest;
      assert KeyFilter([gs[0]] + rest, k) == (if gs[0].0 == k then [gs[0]] else []) + KeyFilter(rest, k);
      assert KeyFilter(gs, k) == (if gs[0].0 == k then [gs[0]] else []) + KeyFilter(gs[1..], k);
      if gs[0].0 == k {
        assert Flatten([gs[0]] + KeyFilter(rest, k)) == Tag(k, gs[0].1) + Flatten(KeyFilter(rest, k));
        assert Flatten([gs[0]] + KeyFilter(gs[1..], k)) == Tag(k, gs[0].1) + Flatten(KeyFilter(gs[1..], k));
      } else {
        assert [] + KeyFilter(rest, k) == KeyFilter(rest, k);
        assert [] + KeyFilter(gs[1..], k) == KeyFilter(gs[1..], k);
      }
    }
  }

  /** Adding a pair never leaves an entry without values. */
  lemma {:induction false} AddPairNonEmpty(gs: seq<Group>, p: Pair)
    requires forall i :: 0 <= i < |gs| ==> gs[i].1 != []
    ensures forall i :: 0 <= i < |AddPair(gs, p)| ==> AddPair(gs, p)[i].1 != []
  {
    if gs != [] && gs[0].0 != p.0 {
      AddPairNonEmpty(gs[1..], p);
      var t := AddPair(gs[1..], p);
      assert forall i :: 0 < i <= |t| ==> ([gs[0]] + t)[i] == t[i - 1];
    }
  }

  /** Every entry of the dict holds at least one value. */
  lemma {:induction false} GroupByKeyNonEmpty(ps: seq<Pair>)
    ensures forall i :: 0 <= i < |GroupByKey(ps)| ==> GroupByKey(ps)[i].1 != []
    decreases |ps|
  {
    if ps != [] {
      GroupByKeyNonEmpty(ps[..|ps| - 1]);
      AddPairNonEmpty(GroupByKey(ps[..|ps| - 1]), ps[|ps| - 1]);
    }
  }

  /** Each dict entry holds exactly the values of its key, in order, no key
      has two entries, and no entry is empty: the dict has an entry for
      exactly the keys of the query. */
  lemma {:induction false} GroupByKeyCorrect(ps: seq<Pair>, k: string)
    ensures DistinctKeys(GroupByKey(ps))
    ensures Flatten(KeyFilter(GroupByKey(ps), k)) == KeyFilter(ps, k)
    ensures forall i :: 0 <= i < |GroupByKey(ps)| ==> GroupByKey(ps)[i].1 != []
    decreases |ps|
  {
    GroupByKeyNonEmpty(ps);
    if ps != [] {
      var init, last := ps[..|ps| - 1], ps[|ps| - 1];
      GroupByKeyCorrect(init, k);
      AddPairDistinct(GroupByKey(init), last);
      AddPairFlatten(GroupByKey(init), last, k);
      assert ps == init + [last];
      KeyFilterAppend(init, [last], k);
      assert KeyFilter([last], k) == (if last.0 == k then [last] else []) + KeyFilter([last][1..], k);
    }
  }

  lemma {:induction false} FlattenLeAll(m: string, gs: seq<Group>)
    requires LeAll(m, gs)
    ensures LeAll(m, Flatten(gs))
  {
    if gs != [] {
      assert LeAll(m, gs[1..]) by {
        forall i | 0 <= i < |gs| - 1 ensures StrLe(m, gs[1..][i].0) {
          assert gs[1..][i] == gs[i + 1];
        }
      }
      FlattenLeAll(m, gs[1..]);
      var a: seq<Pair>, b: seq<Pair> := Tag(gs[0].0, gs[0].1), Flatten(gs[1..]);
      assert StrLe(m, gs[0].0);
      forall i | 0 <= i < |a + b| ensures StrLe(m, (a + b)[i].0) {
        if i >= |a| {
          assert (a + b)[i] == b[i - |a|];
        }
      }
    }
  }

  lemma SortedAppend<V>(a: seq<(string, V)>, b: seq<(string, V)>)
    requires SortedByKey(a) && SortedByKey(b)
    requires forall i :: 0 <= i < |a| ==> LeAll(a[i].0, b)
    ensures SortedByKey(a + b)
  {
    var t := a + b;
    forall i, j | 0 <= i < j < |t| ensures StrLe(t[i].0, t[j].0) {
      if j < |a| {
        assert t[i] == a[i] && t[j] == a[j];
      } else if i < |a| {
        assert t[i] == a[i] && t[j] == b[j - |a|];
      } else {
        assert t[i] == b[i - |a|] && t[j] == b[j - |a|];
      }
    }
  }

  lemma {:induction false} FlattenSorted(gs: seq<Group>)
    requires SortedByKey(gs)
    ensures SortedByKey(Flatten(gs))
  {
    if gs != [] {
      assert gs == [gs[0]] + gs[1..];
      SortedCons(gs[0], gs[1..]);
      FlattenSorted(gs[1..]);
      FlattenLeAll(gs[0].0, gs[1..]);
      var a := Tag(gs[0].0, gs[0].1);
      StrLeReflexive(gs[0].0);
      SortedAppend(a, Flatten(gs[1..]));
    }
  }

  /** The dict-and-sort pipeline of `normalize_url` is the stable sort of the
      query pairs by key: a permutation that keeps blank values, puts keys in
      non-decreasing order and keeps pairs with the same key in input order. */
  lemma RegroupIsStableSort(ps: seq<Pair>)
    ensures RegroupQuery(ps) == SortByKey(ps)
    ensures IsStableSortByKey(ps, RegroupQuery(ps))
    ensures multiset(RegroupQuery(ps)) == multiset(ps)
  {
    var gs := GroupByKey(ps);
    var sorted := SortByKey(gs);
    SortByKeyCorrect(gs);
    FlattenSorted(sorted);
    forall k ensures KeyFilter(RegroupQuery(ps), k) == KeyFilter(ps, k) {
      FlattenKeyFilter(sorted, k);
      GroupByKeyCorrect(ps, k);
    }
    StableSortIsSortByKey(ps, RegroupQuery(ps));
    SortByKeyCorrect(ps);
  }

  /** The query string `normalize_url` emits: the rendering of the stable
      sort by key of the parsed fields. */
  function NormalizeQuery(q: string): (r: string)
    ensures r == RenderQuery(SortByKey(ParseQuery(q)))
  {
    RegroupIsStableSort(ParseQuery(q));
    RenderQuery(RegroupQuery(ParseQuery(q)))
  }

  /** Parsing the normalised query gives the stable sort of the original
      query's pairs: the same fields, blank values included, keys ascending,
      same-key fields in their original order. */
  lemma NormalizeQueryParses(q: string)
    ensures ParseQuery(NormalizeQuery(q)) == SortByKey(ParseQuery(q))
    ensures multiset(ParseQuery(NormalizeQuery(q))) == multiset(ParseQuery(q))
    ensures IsStableSortByKey(ParseQuery(q), ParseQuery(NormalizeQuery(q)))
  {
    var ps := ParseQuery(q);
    RegroupIsStableSort(ps);
    assert WellFormed(RegroupQuery(ps)) by {
      forall p | p in RegroupQuery(ps) ensures p in ps {
        assert p in multiset(RegroupQuery(ps));
      }
    }
    ParseRenderQuery(RegroupQuery(ps));
  }

  /** Normalising a normalised query changes nothing. */
  lemma NormalizeQueryIdempotent(q: string)
    ensures NormalizeQuery(NormalizeQuery(q)) == NormalizeQuery(q)
  {
    var ps := ParseQuery(q);
    NormalizeQueryParses(q);
    var s := SortByKey(ps);
    SortByKeyCorrect(ps);
    SortByKeySorted(s);
    RegroupIsStableSort(s);
    RegroupIsStableSort(ps);
  }

  /** A query rendered from well-formed pairs normalises to the rendering of
      their stable sort by key. */
  lemma NormalizeRenderedQuery(ps: seq<Pair>)
    requires WellFormed(ps)
    ensures NormalizeQuery(RenderQuery(ps)) == RenderQuery(SortByKey(ps))
  {
    ParseRenderQuery(ps);
    RegroupIsStableSort(ps);
  }
}

=== FILE: redirect_test.dfy ===
/** `normalize_url` and `remove_fragment` of the redirect-expansion script:
    both take the components of a parsed URL and give back components. */
module RedirectTest {
  import opened Text
  import opened Query
  import opened Url

  /** The netloc ends in the default port of its scheme. */
  predicate HasDefaultPort(scheme: string, netloc: string) {
    (scheme == "http" && EndsWith(netloc, ":80"))
    || (scheme == "https" && EndsWith(netloc, ":443"))
  }

  /** Drops `:80` from an http netloc and `:443` from an https netloc, exactly
      those characters, and leaves every other netloc alone. */
  function StripDefaultPort(scheme: string, netloc: string): (r: string)
    ensures scheme == "http" && EndsWith(netloc, ":80") ==> r + ":80" == netloc
    ensures scheme == "https" && EndsWith(netloc, ":443") ==> r + ":443" == netloc
    ensures !HasDefaultPort(scheme, netloc) ==> r == netloc
  {
    if scheme == "http" && EndsWith(netloc, ":80") then netloc[..|netloc| - 3]
    else if scheme == "https" && EndsWith(netloc, ":443") then netloc[..|netloc| - 4]
    else netloc
  }

  /** `s.rstrip("/")`: the longest prefix of `s` that does not end in '/';
      everything removed is '/'. */
  function RStripSlashes(s: string): (r: string)
    ensures |r| <= |s| && r == s[..|r|]
    ensures forall i :: |r| <= i < |s| ==> s[i] == '/'
    ensures r == [] || r[|r| - 1] != '/'
  {
    if |s| > 0 && s[|s| - 1] == '/' then RStripSlashes(s[..|s| - 1]) else s
  }

  /** The path step: a path longer than one character that ends in '/' loses
      all its trailing slashes (so "//" becomes ""); "/" and paths not ending
      in '/' are kept. Afterwards the path is "/" or does not end in '/'. */
  function StripTrailingSlash(path: string): (r: string)
    ensures |path| > 1 && EndsWith(path, "/") ==>
      && |r| < |path| && r == path[..|r|]
      && (forall i :: |r| <= i < |path| ==> path[i] == '/')
      && !EndsWith(r, "/")
    ensures !(|path| > 1 && EndsWith(path, "/")) ==> r == path
    ensures r == "/" || !EndsWith(r, "/")
  {
    if EndsWith(path, "/") && |path| > 1 then RStripSlashes(path) else path
  }

  /** Stripping trailing slashes from a stripped path changes nothing. */
  lemma StripTrailingSlashIdempotent(path: string)
    ensures StripTrailingSlash(StripTrailingSlash(path)) == StripTrailingSlash(path)
  {
  }

  /** "//" loses both slashes; "/" is kept. */
  lemma SlashOnlyPaths()
    ensures StripTrailingSlash("//") == "" && StripTrailingSlash("/") == "/"
  {
    assert EndsWith("//", "/");
    assert RStripSlashes("//") == RStripSlashes("/");
  }

  /** `normalize_url` on the components `urlparse` produced. */
  function NormalizeUrl(u: Components): (r: Components)
    ensures r.scheme == LowerAscii(u.scheme)
    ensures r.netloc == StripDefaultPort(r.scheme, LowerAscii(u.netloc))
    ensures r.path == StripTrailingSlash(u.path)
    ensures r.params == u.params && r.fragment == u.fragment
    ensures r.query == RenderQuery(SortByKey(ParseQuery(u.query)))
    ensures ParseQuery(r.query) == SortByKey(ParseQuery(u.query))
    ensures multiset(ParseQuery(r.query)) == multiset(ParseQuery(u.query))
    ensures IsStableSortByKey(ParseQuery(u.query), ParseQuery(r.query))
  {
    var scheme := LowerAscii(u.scheme);
    var netloc := StripDefaultPort(scheme, LowerAscii(u.netloc));
    NormalizeQueryParses(u.query);
    Components(scheme, netloc, StripTrailingSlash(u.path), u.params,
               NormalizeQuery(u.query), u.fragment)
  }

  /** `remove_fragment`: the fragment becomes empty, the rest is kept. */
  function RemoveFragment(u: Components): (r: Components)
    ensures r.fragment == ""
    ensures r.scheme == u.scheme && r.netloc == u.netloc && r.path == u.path
    ensures r.params == u.params && r.query == u.query
  {
    u.(fragment := "")
  }

  lemma RemoveFragmentIdempotent(u: Components)
    ensures RemoveFragment(RemoveFragment(u)) == RemoveFragment(u)
  {
  }

  /** Removing the fragment before or after normalising gives the same URL. */
  lemma RemoveFragmentCommutes(u: Components)
    ensures RemoveFragment(NormalizeUrl(u)) == NormalizeUrl(RemoveFragment(u))
  {
  }

  lemma LowerAsciiOfPrefix(s: string, n: nat)
    requires n <= |s|
    ensures LowerAscii(LowerAscii(s)[..n]) == LowerAscii(s)[..n]
  {
  }

  /** Normalising a normalised URL changes nothing, unless its netloc still
      ends in a default port (as "host:80:80" does after one pass). */
  lemma NormalizeIdempotent(u: Components)
    requires !HasDefaultPort(NormalizeUrl(u).scheme, NormalizeUrl(u).netloc)
    ensures NormalizeUrl(NormalizeUrl(u)) == NormalizeUrl(u)
  {
    var n := NormalizeUrl(u);
    LowerAsciiIdempotent(u.scheme);
    var lower := LowerAscii(u.netloc);
    if n.scheme == "http" && EndsWith(lower, ":80") {
      LowerAsciiOfPrefix(u.netloc, |lower| - 3);
    } else if n.scheme == "https" && EndsWith(lower, ":443") {
      LowerAsciiOfPrefix(u.netloc, |lower| - 4);
    } else {
      LowerAsciiIdempotent(u.netloc);
    }
    StripTrailingSlashIdempotent(u.path);
    NormalizeQueryIdempotent(u.query);
  }

  /** A netloc carrying the default port twice keeps one after a pass, so the
      precondition of NormalizeIdempotent cannot be dropped. */
  lemma DoublePortNeedsTwoPasses()
    ensures StripDefaultPort("http", "h:80:80") == "h:80"
    ensures HasDefaultPort("http", "h:80")
    ensures StripDefaultPort("http", "h:80") == "h"
  {
    assert EndsWith("h:80:80", ":80");
    assert "h:80:80"[..4] == "h:80";
    assert EndsWith("h:80", ":80");
    assert "h:80"[..1] == "h";
  }

  /** "HTTP://www.Example.com:80/path/" normalises to "http://www.example.com/path".
      `urlparse` already lower-cases the scheme, so it would hand over "http";
      the upper-case component here only exercises the lower-casing step, and
      the result is the same either way. */
  lemma NormalizesHostAndPath()
    ensures NormalizeUrl(Components("HTTP", "www.Example.com:80", "/path/", "", "", ""))
         == Components("http", "www.example.com", "/path", "", "", "")
  {
    assert LowerAscii("HTTP") == "http";
    assert LowerAscii("www.Example.com:80") == "www.example.com:80";
    assert EndsWith("www.example.com:80", ":80");
    assert "www.example.com:80"[..15] == "www.example.com";
    assert EndsWith("/path/", "/");
    assert RStripSlashes("/path/") == "/path";
    assert SplitFields("") == [""];
  }

  /** The query "b=2&a=1" is emitted as "a=1&b=2". */
  lemma SortsQueryKeys()
    ensures NormalizeQuery("b=2" + "&" + "a=1") == "a=1" + "&" + "b=2"
  {
    var b, a := ("b", "2"), ("a", "1");
    assert RenderField(b) == "b=2" && RenderField(a) == "a=1";
    assert RenderQuery([b, a]) == "b=2" + "&" + "a=1";
    assert RenderQuery([a, b]) == "a=1" + "&" + "b=2";
    NormalizeRenderedQuery([b, a]);
    assert !StrLe("b", "a") && StrLe("a", "b");
    assert [b, a][1..] == [a] && [a][1..] == [];
    assert SortByKey([a]) == [a];
    assert InsertByKey(b, [a]) == [a] + InsertByKey(b, []);
    assert SortByKey([b, a]) == [a, b];
  }

  /** "https://www.EXAMPLE.com:443/path/?b=2&a=1#section", the last example
      of `main`, normalises to "https://www.example.com/path?a=1&b=2#section":
      the https default port goes, the keys are sorted, the fragment stays. */
  lemma NormalizesHttpsExample()
    ensures NormalizeUrl(Components("https", "www.EXAMPLE.com:443", "/path/", "", "b=2" + "&" + "a=1", "section"))
         == Components("https", "www.example.com", "/path", "", "a=1" + "&" + "b=2", "section")
  {
    assert LowerAscii("https") == "https";
    assert LowerAscii("www.EXAMPLE.com:443") == "www.example.com:443";
    assert EndsWith("www.example.com:443", ":443");
    assert "www.example.com:443"[..15] == "www.example.com";
    assert EndsWith("/path/", "/");
    assert RStripSlashes("/path/") == "/path";
    SortsQueryKeys();
  }

  /** A URL that is already normal comes back unchanged: lower-case scheme
      and netloc, no default port, no trailing slash on a longer path, and a
      query that is empty or a single `key=value` field (key without '&' or
      '=', value without '&'). The middle examples of `main` are such URLs. */
  lemma AlreadyNormal(u: Components, k: string, v: string)
    requires LowerAscii(u.scheme) == u.scheme && LowerAscii(u.netloc) == u.netloc
    requires !HasDefaultPort(u.scheme, u.netloc)
    requires !(|u.path| > 1 && EndsWith(u.path, "/"))
    requires '&' !in k && '=' !in k && '&' !in v
    requires u.query == "" || u.query == k + "=" + v
    ensures NormalizeUrl(u) == u
  {
    if u.query == "" {
      assert SplitFields("") == [""];
    } else {
      assert u.query == RenderQuery([(k, v)]);
      NormalizeRenderedQuery([(k, v)]);
      assert SortByKey([(k, v)]) == [(k, v)];
    }
  }

  /** A single field without '=' is not left alone: it gets a blank value
      and is written back as `key=`, so "a" becomes "a=". */
  lemma BlankFieldGetsEquals(k: string)
    requires k != "" && '&' !in k && '=' !in k
    ensures NormalizeQuery(k) == k + "="
  {
    assert SplitFields(k) == [k];
    assert ParseField(k) == (k, "");
    assert ParseFields([k]) == [(k, "")];
    assert SortByKey([(k, "")]) == [(k, "")];
  }

  /** "https://www.youtube.com/watch?v=abc123#channel" is already normal. */
  lemma KeepsVideoUrl()
    ensures NormalizeUrl(Components("https", "www.youtube.com", "/watch", "", "v" + "=" + "abc123", "channel"))
         == Components("https", "www.youtube.com", "/watch", "", "v" + "=" + "abc123", "channel")
  {
    assert LowerAscii("https") == "https";
    assert LowerAscii("www.youtube.com") == "www.youtube.com";
    assert !EndsWith("www.youtube.com", ":443");
    assert !EndsWith("/watch", "/");
    AlreadyNormal(Components("https", "www.youtube.com", "/watch", "", "v" + "=" + "abc123", "channel"), "v", "abc123");
  }

  /** "https://youtu.be/abc123" is already normal. */
  lemma KeepsShortVideoUrl()
    ensures NormalizeUrl(Components("https", "youtu.be", "/abc123", "", "", ""))
         == Components("https", "youtu.be", "/abc123", "", "", "")
  {
    assert LowerAscii("https") == "https";
    assert LowerAscii("youtu.be") == "youtu.be";
    assert !EndsWith("youtu.be", ":443");
    assert !EndsWith("/abc123", "/");
    AlreadyNormal(Components("https", "youtu.be", "/abc123", "", "", ""), "", "");
  }

  /** "http://bit.ly/3kX2Example" is already normal: the path keeps its case. */
  lemma KeepsPathCase()
    ensures NormalizeUrl(Components("http", "bit.ly", "/3kX2Example", "", "", ""))
         == Components("http", "bit.ly", "/3kX2Example", "", "", "")
  {
    assert LowerAscii("http") == "http";
    assert LowerAscii("bit.ly") == "bit.ly";
    assert !EndsWith("bit.ly", ":80");
    assert !EndsWith("/3kX2Example", "/");
    AlreadyNormal(Components("http", "bit.ly", "/3kX2Example", "", "", ""), "", "");
  }

  /** "https://bit.ly/mbmbam" is already normal. */
  lemma KeepsShortLink()
    ensures NormalizeUrl(Components("https", "bit.ly", "/mbmbam", "", "", ""))
         == Components("https", "bit.ly", "/mbmbam", "", "", "")
  {
    assert LowerAscii("https") == "https";
    assert LowerAscii("bit.ly") == "bit.ly";
    assert !EndsWith("bit.ly", ":443");
    assert !EndsWith("/mbmbam", "/");
    AlreadyNormal(Components("https", "bit.ly", "/mbmbam", "", "", ""), "", "");
  }
}

=== FILE: text.dfy ===
/** String helpers shared by the URL model: ASCII case mapping, suffix tests,
    character search, and the code-point order Python uses to compare `str`. */
module Text {

  predicate IsUpperAscii(c: char) {
    'A' <= c <= 'Z'
  }

  function LowerChar(c: char): char {
    if IsUpperAscii(c) then (c as int + 32) as char else c
  }

  /** `str.lower()` restricted to ASCII: only 'A'..'Z' change, each to its
      lower-case letter, and nothing upper-case is left. */
  function LowerAscii(s: string): (r: string)
    ensures |r| == |s|
    ensures forall i :: 0 <= i < |r| ==> !IsUpperAscii(r[i])
    ensures forall i :: 0 <= i < |s| && !IsUpperAscii(s[i]) ==> r[i] == s[i]
    ensures forall i :: 0 <= i < |s| && IsUpperAscii(s[i]) ==> r[i] as int == s[i] as int + 32
  {
    seq(|s|, i requires 0 <= i < |s| => LowerChar(s[i]))
  }

  /** Lowering twice is lowering once. */
  lemma LowerAsciiIdempotent(s: string)
    ensures LowerAscii(LowerAscii(s)) == LowerAscii(s)
  {
  }

  /** `s.endswith(suffix)`: `s` is some prefix followed by `suffix`. */
  predicate EndsWith(s: string, suffix: string)
    ensures EndsWith(s, suffix) ==> |suffix| <= |s| && s == s[..|s| - |suffix|] + suffix
  {
    |suffix| <= |s| && s[|s| - |suffix|..] == suffix
  }

  /** Every string ending in `suffix` is recognised as such. */
  lemma EndsWithAppend(p: string, suffix: string)
    ensures EndsWith(p + suffix, suffix)
  {
    assert (p + suffix)[|p|..] == suffix;
  }

  /** Position of the first `c` in `s`, or `|s|` when there is none. */
  function IndexOf(s: string, c: char): (i: nat)
    ensures i <= |s|
    ensures i < |s| ==> s[i] == c
    ensures forall j :: 0 <= j < i ==> s[j] != c
    ensures i == |s| <==> c !in s
  {
    if |s| == 0 then 0
    else if s[0] == c then 0
    else 1 + IndexOf(s[1..], c)
  }

  /** In `a + [c] + b` with no `c` in `a`, the first `c` is the one after `a`. */
  lemma IndexOfAfter(a: string, c: char, b: string)
    requires c !in a
    ensures IndexOf(a + [c] + b, c) == |a|
  {
    var s := a + [c] + b;
    var i := IndexOf(s, c);
    assert s[|a|] == c;
  }

  /** Python's `a <= b` on `str`: lexicographic by code point, a proper
      prefix sorting first. (Dafny's `<=` on sequences is the prefix order.) */
  predicate StrLe(a: string, b: string) {
    |a| == 0 || (|b| > 0 && (a[0] < b[0] || (a[0] == b[0] && StrLe(a[1..], b[1..]))))
  }

  lemma {:induction false} StrLeReflexive(a: string)
    ensures StrLe(a, a)
  {
    if |a| > 0 {
      StrLeReflexive(a[1..]);
    }
  }

  lemma {:induction false} StrLeTotal(a: string, b: string)
    ensures StrLe(a, b) || StrLe(b, a)
  {
    if |a| > 0 && |b| > 0 && a[0] == b[0] {
      StrLeTotal(a[1..], b[1..]);
    }
  }

  lemma {:induction false} StrLeTransitive(a: string, b: string, c: string)
    requires StrLe(a, b) && StrLe(b, c)
    ensures StrLe(a, c)
  {
    if |a| > 0 && a[0] == b[0] && b[0] == c[0] {
      StrLeTransitive(a[1..], b[1..], c[1..]);
    }
  }

  lemma {:induction false} StrLeAntisymmetric(a: string, b: string)
    requires StrLe(a, b) && StrLe(b, a)
    ensures a == b
  {
    if |a| > 0 {
      StrLeAntisymmetric(a[1..], b[1..]);
      assert a == [a[0]] + a[1..];
      assert b == [b[0]] + b[1..];
    }
  }
}

=== FILE: url.dfy ===
/** The value `urlparse` returns and the two functions of the model hand on:
    the six components of a URL, each a string, the query still undecoded. */
module Url {

  datatype Components = Components(
    scheme: string,
    netloc: string,
    path: string,
    params: string,
    query: string,
    fragment: string)
}
